=== FILE: README.md ===
# Poseidon sponge hash — a Dafny model

This project models the Poseidon sponge hash of the `poseidon-rust` crate
(`src/lib.rs`): the HADES-style Poseidon permutation and the plain sponge
wrapped around it.

The permutation runs `full_rounds + partial_rounds` rounds, numbered from 0.
Each round does three steps:

- **ARK** adds the round constants `c[t*k + i]`.
- **S-box** raises slot 0 to `alpha` inside the partial-round window
  `full_rounds/2 <= k < full_rounds/2 + partial_rounds`, and raises every
  slot to `alpha` outside it.
- **Linear layer** multiplies the state by the MDS matrix.

The sponge works as follows:

- It zero-pads the input to a multiple of the rate `r`.
- It starts from `t` zeros.
- For each block it adds the block into slots `0 .. r-1` and permutes.
- It squeezes `r` slots per permutation until at least `L` outputs have been
  collected. It then pops trailing outputs until the length is a multiple of
  `L` (when `L > 1`), or until at most one output remains (otherwise).

The modules:

- `Field`: elements of the BLS12-381 base field, the field the crate
  instantiates, with `Add`, `Mul` and a recursive `Pow`. No proof relies on
  the value of the prime beyond it being greater than 1.
- `DivMod`: small lemmas about Euclidean division used by the index proofs.
- `Params`: the parameter record `Constants` (constants `c`, MDS matrix `m`,
  width `t`, round counts, `alpha`). It has two predicates:
  - `Valid`: the shape a loaded parameter set has.
  - `InBounds`: the weaker shape the permutation actually needs so that
    every index it reads exists.
- `Permutation`: ARK, S-box, linear layer, rounds and the permutation, as
  pure functions. Each stage is written as the slot-by-slot recursion that
  mirrors its loop, and is proved against a pointwise statement.
- `Sponge`: padding, block addition, absorption, squeezing and the hash, as
  pure functions. They are stated for any width-preserving permutation value
  (`Perm`); `Hash` instantiates them with the Poseidon permutation through
  `PermutationOf`.
- `Poseidon`: the sponge functions and the round loop written as the loops
  they are (`while`/`for`, push, pop). Each is proved to compute the pure
  definition. The loops inside `ark`, `sbox` and `linear_layer` are the
  slot-by-slot recursions `ArkSlots`, `PowSlots` and `LinearRows` of
  `Permutation`.
  - `Absorb` and `Squeeze` also return the number of permutations they ran.
  - The in-place `&mut` updates become returned values.

## Model

| member | source | states |
|---|---|---|
| Params.ValidInBounds | src/read_constants.rs:14-21 | a loaded parameter set (`t >= 1`, `(RF+RP)*t` constants, `t×t` matrix) meets every index requirement of the permutation |
| Params.ConstantsNeededCount | src/lib.rs:143-147 | `n` rounds of width `t` consume exactly `n*t` round constants |
| Params.RoundConstantsAvailable | src/lib.rs:143-147 | for a parameter set in bounds and any round `k < RF+RP`, every index `t*k + i` with `i < t` lies inside `c` |
| Params.ConstantReadsAscending | src/lib.rs:94-100 | over one permutation the ARK steps read the constant positions `0, 1, ..., (RF+RP)*t - 1`, each once, in increasing order |
| Permutation.ArkReadsInOrder | src/lib.rs:143-147 | slot `i` of ARK in round `k` adds the constant at entry `t*k + i` of that read order, so ARK itself reads every constant once, in ascending order across the permutation |
| Permutation.ArkSlots | src/lib.rs:143-147 | after processing slots `0..n-1`, slot `i < n` holds `state[i] + c[t*k + i]` and every later slot is unchanged |
| Permutation.Ark | src/lib.rs:143-147 | ARK of round `k` adds `c[t*k + i]` to each slot `i < t`, leaves slots `>= t` and the length unchanged; needs only `t*(k+1) <= |c|` |
| Permutation.InPartialWindow | src/lib.rs:123-126 | no contract of its own; `Sbox` states what the window changes, and `PartialRoundsAmongCount` and `RoundKinds` count the rounds inside it: exactly `RP`, starting at round `RF/2` |
| Permutation.PowSlots | src/lib.rs:131-136 | after processing slots `0..n-1`, each of them holds its `e`-th power and the rest are unchanged |
| Permutation.Sbox | src/lib.rs:123-137 | in the window `RF/2 <= k < RF/2 + RP` only slot 0 becomes `state[0]^alpha` and the others are unchanged; outside it every slot becomes its `alpha`-th power; the length is kept |
| Permutation.LinearRows | src/lib.rs:106-116 | a fresh zero state whose first `n` slots hold the row products `Σ_{j<t} state[j]*m[i][j]` and whose other slots are still zero |
| Permutation.Dot | src/lib.rs:111-113 | no contract of its own; it is the row sum that `LinearRows` and `LinearLayer` place in each slot, and `IdentityLayer` evaluates it for the 2×2 identity matrix |
| Permutation.LinearLayer | src/lib.rs:106-116 | the result has exactly `t` slots and slot `i` is `Σ_{j<t} state[j]*m[i][j]`, accumulated from `j = 0` |
| Permutation.RoundFits | src/lib.rs:94-100 | every round `k < RF+RP` of a parameter set in bounds finds its `t` constants, and a partial round finds a slot 0 |
| Permutation.Round | src/lib.rs:95-99 | one round (ARK, S-box, linear layer) maps a width-`t` state to a width-`t` state |
| Permutation.FirstRounds | src/lib.rs:94-100 | rounds `0 .. n-1` applied in order keep the state at width `t` |
| Permutation.Permute | src/lib.rs:94-100 | the full permutation keeps the state at width `t` |
| Permutation.PartialRoundsAmongCount | src/lib.rs:123-127 | among rounds `0..n-1` the window holds none up to `RF/2`, then `n - RF/2`, then exactly `RP` |
| Permutation.RoundKinds | src/lib.rs:123-137 | one permutation applies the partial S-box in exactly `RP` rounds and the full S-box in exactly `RF` rounds, the first `RF/2` rounds being full |
| Permutation.IdentityLayer | src/lib.rs:106-116 | with the 2×2 identity matrix the linear layer leaves a two-slot state unchanged |
| Permutation.TwoSlotRound | src/lib.rs:94-100 | with `t = 2`, one full round, constants `[c0, c1]` and the identity matrix, `[x0, x1]` maps to `[(x0+c0)^alpha, (x1+c1)^alpha]` |
| Sponge.IterateLast | src/lib.rs:34-37 | `n+1` successive permutations are `n` of them followed by one more |
| Sponge.IterateKeepsWidth | src/lib.rs:34-37 | repeated permutation keeps the state width |
| Sponge.PadLengthFacts | src/lib.rs:84-86 | the number of zeros pushed is below `r`, makes the length a multiple of `r`, is 0 for aligned input and `r - n%r` otherwise |
| Sponge.PadLengthLeast | src/lib.rs:84-86 | no length strictly before the padded length is a multiple of `r`, so the push loop stops at the least such length |
| Sponge.Pad | src/lib.rs:81-89 | the result length is a multiple of `r` in `[n, n+r)`; the input is a prefix; every appended element is zero; an aligned input is returned unchanged; otherwise exactly `r - n%r` zeros are added |
| Sponge.PadTrailingZero | src/lib.rs:81-89 | appending one zero to an unaligned input does not change its padding |
| Sponge.PadEightByThree | src/lib.rs:179-194 | any eight-element input pads to nine elements at rate 3, the added one zero |
| Sponge.AddBlock | src/lib.rs:69-73 | slot `i < r` becomes `state[i] + block[i]` and slots from `r` on are untouched |
| Sponge.AbsorbBlocks | src/lib.rs:59-62 | absorbing any number of blocks keeps the state at width `t` |
| Sponge.AbsorbBlocksNext | src/lib.rs:59-62 | absorbing block `j` (elements `j*r .. j*r+r`) is one block addition followed by one permutation |
| Sponge.AbsorbBlocksPrefix | src/lib.rs:59-62 | absorbing the first `j` blocks depends only on those blocks |
| Sponge.Absorb | src/lib.rs:53-64 | absorption returns a state of width `t` |
| Sponge.AbsorbOneBlockAtATime | src/lib.rs:53-64 | the empty input absorbs to `t` zeros; appending a full block to an aligned input adds it to the previous state and permutes once more |
| Sponge.AbsorbTrailingZero | src/lib.rs:53-64 | an unaligned input and the same input with a trailing zero absorb to the same state |
| Sponge.AbsorbOneZero | src/lib.rs:53-64 | at rate 1 the input `[0]` absorbs to one permutation of the zero state |
| Sponge.ZeroInputScenario | src/lib.rs:53-64 | with `t = 2`, one full round, constants `[c0, c1]`, the identity matrix and `r = 1`, absorbing `[0]` gives `[c0^alpha, c1^alpha]` |
| Sponge.ZerosPermuted | src/lib.rs:94-100 | the permutation of that instance maps `[0, 0]` to `[c0^alpha, c1^alpha]` |
| Sponge.BlocksNeededLeast | src/lib.rs:34-37 | `ceil(L/r)` is the unique `j` with `j*r >= L` and `(j-1)*r < L`: the number of times the squeeze loop runs |
| Sponge.SqueezeBlocks | src/lib.rs:34-37 | `k` squeeze steps collect exactly `k*r` elements |
| Sponge.SqueezeBlocksLast | src/lib.rs:34-37 | one more step appends the first `r` slots of the state after `k` permutations |
| Sponge.SqueezeBlocksAt | src/lib.rs:34-37 | element `b*r + o` of the collected blocks is slot `o` of the state after `b` permutations |
| Sponge.TrimToMultipleFacts | src/lib.rs:38-41 | popping until the length is a multiple of `L` keeps exactly the first `floor(n/L)*L` elements |
| Sponge.TrimToMultiple | src/lib.rs:38-41 | no contract of its own; `TrimToMultipleFacts` shows it keeps exactly the first `floor(n/L)*L` elements, and `Poseidon.PopToMultiple` shows the pop loop computes it |
| Sponge.TrimToOneFacts | src/lib.rs:42-46 | popping while more than one element remains keeps the first element, or nothing if there was none |
| Sponge.TrimToOne | src/lib.rs:42-46 | no contract of its own; `TrimToOneFacts` shows it keeps the first element, or nothing, and `Poseidon.PopToOne` shows the pop loop computes it |
| Sponge.SqueezeLength | src/lib.rs:26-48 | `L = 0` gives nothing; `L = 1` gives exactly one element; `L > 1` gives a multiple of `L` between `L` and `k*r`, namely `floor(k*r/L)*L`, which is exactly `L` when `r <= L` and `floor(r/L)*L` when `r > L` |
| Sponge.SqueezeFromSnapshots | src/lib.rs:26-48 | the output is a prefix of the collected snapshots, and element `i` is slot `i % r` of the state after `i / r` permutations |
| Sponge.Squeeze | src/lib.rs:26-48 | no contract of its own; its length is in `SqueezeLength`, its elements in `SqueezeFromSnapshots`, and `Poseidon.Squeeze` shows the crate's loops compute it |
| Sponge.PermutationOf | src/lib.rs:94-100 | the permutation as a state-to-state function keeps width `t` and agrees with `Permute` on every width-`t` state |
| Sponge.Hash | src/lib.rs:12-21 | the hash of `L` outputs has the squeeze lengths: empty for `L = 0`, one element for `L = 1`, a multiple of `L` of at least `L` (exactly `L` when `r <= L`) for `L > 1` |
| Poseidon.PoseidonPermutation | src/lib.rs:94-100 | the loop over rounds `0 .. RF+RP-1` of ARK, S-box and linear layer computes `Permute` and keeps width `t` |
| Poseidon.InitState | src/lib.rs:152-157 | pushing `t` zeros gives a state of exactly `t` zeros |
| Poseidon.Pad | src/lib.rs:81-89 | the push-zero loop terminates at a length that is a multiple of `r` in `[n, n+r)` and computes `Sponge.Pad` |
| Poseidon.AddBlock | src/lib.rs:69-73 | the loop adds `block[i]` into `state[i]` for `i < r`, leaves the capacity slots untouched and computes `Sponge.AddBlock` |
| Poseidon.AbsorbBlock | src/lib.rs:60-61 | one iteration of the absorb loop is the block addition followed by the permutation |
| Poseidon.Absorb | src/lib.rs:53-64 | the block loop returns a width-`t` state equal to `Sponge.Absorb`, after exactly `|pad(input, r)| / r` permutations |
| Poseidon.Squeeze | src/lib.rs:26-48 | the squeeze loops compute `Sponge.Squeeze` after exactly `ceil(L/r)` permutations (none for `L = 0`), with the output lengths of `SqueezeLength`; the state permuted in place is returned, equal to that many permutations of the input state |
| Poseidon.PopToMultiple | src/lib.rs:38-41 | the pop loop leaves the first `floor(n/L)*L` elements |
| Poseidon.PopToOne | src/lib.rs:42-46 | the pop loop leaves the first element, or nothing when empty |
| Poseidon.Hash | src/lib.rs:12-21 | absorb then squeeze computes `Sponge.Hash`, i.e. `Squeeze(Absorb(input))` with the Poseidon permutation, with the squeeze output lengths |

## Left out

- Field arithmetic: the crate is generic over an arkworks `PrimeField`, a foreign library. The model fixes the BLS12-381 base field as integers modulo its prime. `add_assign`, `*` and `pow` become `Add`, `Mul` and a recursive `Pow`.
- Integer widths: every count is an unbounded natural. The crate's widths are not modelled, and none of these limits is reached by realistic parameters:
  - `full_rounds`, `partial_rounds` and `alpha` are `u32`, and `t` is `usize` (`src/read_constants.rs:17-20`).
  - The `u32` sums `full_rounds + partial_rounds` (`src/lib.rs:95`) and `full_rounds / 2 + partial_rounds` (`src/lib.rs:125`) panic past `2^32` in a debug build and wrap in a release build. The cast `round_number as u32` (`src/lib.rs:124-125`) truncates a round number of `2^32` or more in any build.
  - The `as u32` casts of lengths in `pad` and `squeeze` (`src/lib.rs:34`, `src/lib.rs:39`, `src/lib.rs:43`, `src/lib.rs:84`) would wrap for lengths of `2^32` or more.
  - `r as u32` (`src/lib.rs:55`) truncates a rate of `2^32` or more before `pad`, while `add_block` and `step_by` use the full `r`.
- `read_constants.rs`: file reading, line slicing and hex/decimal conversion are not modelled. Only the `Constants` record is kept. `main.rs` (a printing demo) is not part of this model.
- Test vectors and randomised tests: concrete field outputs cannot be stated without the constant files. Only the padding example and a small one-round instance are stated.
- In-place mutation: `&mut Vec` updates are modelled as returned values. `Poseidon.Squeeze` returns the state it permutes alongside its output; the crate's `hash` discards that state (`src/lib.rs:18-20`), and so does `Poseidon.Hash`. `Absorb` and `Squeeze` also return a permutation counter that the crate does not have.
- Determinism of `hash`: it holds by construction, since `Sponge.Hash` is a function of its arguments. No separate statement is made.
- Poseidon.PoseidonPermutation: requires the parameter set to be `InBounds` and the state to have width exactly `t`. Three behaviours of the crate outside this are not modelled:
  - A state narrower than `t`, missing round constants, or missing matrix rows or entries make the crate panic on an index.
  - A state wider than `t` does not panic: `ark` touches slots `0 .. t-1`, `sbox` powers every slot, and `linear_layer` builds a fresh width-`t` result (`src/lib.rs:108-115`). The crate therefore returns such a state truncated to width `t`, or unchanged when there are no rounds at all.
  - With `full_rounds + partial_rounds = 0` the crate returns the state unchanged and never reads `m`, yet `InBounds` still asks for `t` rows of `t` entries.
- Poseidon.Absorb: requires `1 <= r <= t`. With `r = 0` the crate's padding loop panics on a remainder by zero (`src/lib.rs:84`). With `r > t` block addition indexes past the state (`src/lib.rs:71`) as soon as there is a block. An empty input with `r > t` never reaches that index and returns `t` zeros; that call is excluded too. Likewise an empty input never enters the block loop (`src/lib.rs:59-62`), so the crate returns `t` zeros for any parameter set; the model still requires the parameter set to be `InBounds`.
- Poseidon.Squeeze: requires `1 <= r <= t` and a width-`t` state. For `L = 0` the crate never enters its loop (`src/lib.rs:34-37`) and returns an empty vector for any `r`, any parameter set and any state width; the model still requires the parameter set to be `InBounds` and the state to have width `t`. For `L >= 1`:
  - `r > t` panics on the slice `state[..r]` (`src/lib.rs:35`).
  - `r = 0` never terminates: each pass appends nothing and permutes (`src/lib.rs:34-37`). Through `hash` this case is unreachable, because padding panics on `% 0` first.
- Poseidon.Hash: requires `InBounds` and `1 <= r <= t`, what `Absorb` and `Squeeze` need. An empty input with `output_length = 0` never permutes (`src/lib.rs:59-62`, `src/lib.rs:34-37`), so the crate returns an empty vector for any parameter set and any `r >= 1`; that call is excluded too.
- `output_length = 0`: the code returns an empty vector without permuting (`src/lib.rs:34`, `src/lib.rs:43`). The model follows the code.

=== FILE: divmod.dfy ===
/** Facts about Euclidean division by a positive divisor. */
module DivMod {

  /** Multiplying by a factor of at least one does not shrink a positive divisor. */
  lemma MulAtLeast(a: int, d: int)
    requires a >= 1 && d > 0
    ensures a * d >= d
  {
    var k := a - 1;
    assert a * d == k * d + d;
    assert k * d >= 0;
  }

  /** Quotient and remainder are the only pair with `x == q * d + m` and `0 <= m < d`. */
  lemma DivModUnique(x: int, d: int, q: int, m: int)
    requires d > 0 && 0 <= m < d && x == q * d + m
    ensures x / d == q && x % d == m
  {
    var q0, m0 := x / d, x % d;
    assert x == q0 * d + m0;
    if q0 < q {
      MulAtLeast(q - q0, d);
    } else if q < q0 {
      MulAtLeast(q0 - q, d);
    }
  }

  /** A positive multiple of `d` is at least `d`, and stays a multiple when `d` is taken off. */
  lemma MultipleStep(x: int, d: int)
    requires d > 0 && x > 0 && x % d == 0
    ensures x >= d && (x - d) % d == 0 && (x - d) / d == x / d - 1
  {
    var q := x / d;
    assert x == q * d;
    MulAtLeast(q, d);
    DivModUnique(x - d, d, q - 1, 0);
  }

  /** Taking one divisor off a dividend lowers the quotient by one and keeps the remainder. */
  lemma DivModShift(x: int, d: int)
    requires d > 0 && x >= d
    ensures x / d == (x - d) / d + 1 && x % d == (x - d) % d
  {
    var q, m := (x - d) / d, (x - d) % d;
    assert x - d == q * d + m;
    assert x == (q + 1) * d + m;
    DivModUnique(x, d, q + 1, m);
  }

  /** Offset `o` of block `b` of `k` blocks of size `d` lies inside the `k * d` elements. */
  lemma BlockOffset(b: nat, o: nat, d: nat, k: nat)
    requires b < k && o < d
    ensures b * d + o < k * d
    ensures b > 0 ==> b * d + o - d == (b - 1) * d + o
  {
    MulAtLeast(k - b, d);
    assert k * d == b * d + (k - b) * d;
  }

  /** An index below `k` blocks of size `d` lies in block `x / d < k`, at offset `x % d`. */
  lemma BlockOf(x: nat, d: nat, k: nat)
    requires d >= 1 && x < k * d
    ensures x == (x / d) * d + x % d && 0 <= x % d < d && 0 <= x / d < k
  {
    var q := x / d;
    assert x == q * d + x % d;
  }

  /** `(x / d) * d` is the largest multiple of `d` not above `x`. */
  lemma FloorMultiple(x: nat, d: nat)
    requires d >= 1
    ensures 0 <= x / d && 0 <= (x / d) * d <= x < (x / d) * d + d
    ensures ((x / d) * d) % d == 0
    ensures x >= d ==> (x / d) * d >= d
  {
    var q := x / d;
    assert x == q * d + x % d;
    assert q >= 0;
    assert q * d >= 0;
    DivModUnique(q * d, d, q, 0);
    if x >= d {
      MulAtLeast(q, d);
    }
  }

  /** A multiple of `d` is its quotient times `d`. */
  lemma ExactQuotient(x: nat, d: nat)
    requires d >= 1 && x % d == 0
    ensures (x / d) * d == x
  {
    assert x == d * (x / d) + x % d;
  }

  /** Multiplying by `d >= 0` keeps the order. */
  lemma MulMonotone(a: int, b: int, d: int)
    requires a <= b && d >= 0
    ensures a * d <= b * d
  {
    assert b * d == a * d + (b - a) * d;
  }

  /** Fewer elements than `k` blocks of `d` means fewer blocks than `k`. */
  lemma BlockBelow(j: nat, k: nat, d: nat)
    requires j * d < k * d
    ensures j < k
  {
    if j >= k {
      MulMonotone(k, j, d);
    }
  }

  /** The block after block `j < k` still ends inside `k` blocks. */
  lemma NextBlock(j: nat, k: nat, d: nat)
    requires j < k
    ensures (j + 1) * d == j * d + d && (j + 1) * d <= k * d
  {
    assert k * d == (j + 1) * d + (k - j - 1) * d;
    assert (k - j - 1) * d >= 0;
  }
}

=== FILE: field.dfy ===
/**
  Prime-field arithmetic, as supplied to the hash by the field library.

  The hash is generic over any prime field; the model fixes one, the
  BLS12-381 base field that the crate instantiates. Nothing proved about the
  permutation or the sponge depends on the value of `P` beyond `P > 1`.
 */
module Field {
  import opened DivMod

  /** The BLS12-381 base-field modulus. */
  const P: nat := 0x1a0111ea397fe69a4b1ba7b6434bacd764774b84f38512bf6730d2a0f6b0f6241eabfffeb153ffffb9feffffffffaaab

  /** A field element: its canonical representative in `[0, P)`. */
  type Elem = x: int | 0 <= x < P

  const Zero: Elem := 0
  const One: Elem := 1

  function Add(a: Elem, b: Elem): Elem
  {
    (a + b) % P
  }

  function Mul(a: Elem, b: Elem): Elem
  {
    (a * b) % P
  }

  /** `x` raised to the `n`-th power by repeated multiplication. */
  function Pow(x: Elem, n: nat): Elem
  {
    if n == 0 then One else Mul(x, Pow(x, n - 1))
  }

  /** Zero is the additive identity and absorbing for products; one is the multiplicative identity. */
  lemma Identities(a: Elem)
    ensures Add(Zero, a) == a && Add(a, Zero) == a
    ensures Mul(a, One) == a && Mul(One, a) == a
    ensures Mul(a, Zero) == Zero
  {
    DivModUnique(a, P, 0, a);
  }
}

=== FILE: params.dfy ===
/**
  The parameter set of one Poseidon instance: round constants, MDS matrix,
  state width, round counts and S-box exponent. It is produced once by a
  loader and only read afterwards.
 */
module Params {
  import opened Field

  /** A matrix with exactly `n` rows of exactly `n` entries. */
  predicate IsSquare(m: seq<seq<Elem>>, n: nat)
  {
    |m| == n && forall i :: 0 <= i < |m| ==> |m[i]| == n
  }

  datatype Constants = Constants(
    c: seq<Elem>,          // round constants, `t` per round
    m: seq<seq<Elem>>,     // MDS matrix
    t: nat,                // state width
    partialRounds: nat,
    fullRounds: nat,
    alpha: nat             // S-box exponent
  )
  {
    /** Total number of rounds of one permutation. */
    function Rounds(): nat
    {
      fullRounds + partialRounds
    }

    /** The shape invariant a loaded parameter set satisfies. */
    predicate Valid()
    {
      && t >= 1
      && |c| == Rounds() * t
      && IsSquare(m, t)
    }

    /**
      The weakest shape under which one permutation of a width-`t` state
      indexes only existing entries: `t` constants per round, `t` matrix
      rows of at least `t` entries, and a non-empty state whenever some
      round uses the partial S-box (which reads slot 0).
     */
    predicate InBounds()
    {
      && |c| >= ConstantsNeeded(t, Rounds())
      && CoversSquare(m, t)
      && (partialRounds > 0 ==> t >= 1)
    }
  }

  /**
    Constants consumed by `n` rounds of width `t`: `t` per round. This is
    `n * t` (`ConstantsNeededCount`), tallied round by round so that the
    bound in `InBounds` carries no product into the permutation's proofs.
   */
  function ConstantsNeeded(t: nat, n: nat): nat
  {
    if n == 0 then 0 else ConstantsNeeded(t, n - 1) + t
  }

  /** `n` rounds of width `t` consume `n * t` constants. */
  lemma {:induction false} ConstantsNeededCount(t: nat, n: nat)
    ensures ConstantsNeeded(t, n) == n * t
  {
    if n > 0 {
      ConstantsNeededCount(t, n - 1);
      assert n * t == (n - 1) * t + t;
    }
  }

  /** The first `t` rows of `m` each have at least `t` entries. */
  predicate CoversSquare(m: seq<seq<Elem>>, t: nat)
  {
    |m| >= t && forall i :: 0 <= i < t ==> |m[i]| >= t
  }

  /** A valid parameter set is in bounds for the permutation. */
  lemma ValidInBounds(C: Constants)
    requires C.Valid()
    ensures C.InBounds()
  {
    ConstantsNeededCount(C.t, C.Rounds());
  }

  /** Position in `c` of the constant added to slot `i` in round `k`. */
  function ConstantIndex(t: nat, k: nat, i: nat): nat
  {
    t * k + i
  }

  /**
    A parameter set in bounds holds all `t` constants of every round: the
    add-round-key step of round `k < Rounds()` reads only inside `c`.
   */
  lemma RoundConstantsAvailable(C: Constants, k: nat)
    requires C.InBounds() && k < C.Rounds()
    ensures C.t * (k + 1) <= |C.c|
    ensures forall i :: 0 <= i < C.t ==> ConstantIndex(C.t, k, i) < |C.c|
  {
    ConstantsNeededCount(C.t, C.Rounds());
    assert C.t * (k + 1) <= C.t * C.Rounds() by {
      var d := C.Rounds() - (k + 1);
      assert C.t * C.Rounds() == C.t * (k + 1) + C.t * d;
    }
  }

  /**
    The constant positions read by the first `n` rounds, in the order the
    permutation reads them: round by round, slot by slot.
   */
  function ConstantReads(t: nat, n: nat): (r: seq<nat>)
    ensures |r| == n * t
  {
    if n == 0 then []
    else ConstantReads(t, n - 1) + seq(t, i requires 0 <= i < t => ConstantIndex(t, n - 1, i))
  }

  /**
    The rounds of one permutation read every constant exactly once and in
    ascending order: the read sequence is `0, 1, ..., n * t - 1`.
   */
  lemma {:induction false} ConstantReadsAscending(t: nat, n: nat)
    ensures ConstantReads(t, n) == seq(n * t, j requires 0 <= j < n * t => j)
  {
    if n > 0 {
      ConstantReadsAscending(t, n - 1);
      var prev := ConstantReads(t, n - 1);
      var rs := ConstantReads(t, n);
      assert (n - 1) * t + t == n * t;
      forall j | 0 <= j < n * t
        ensures rs[j] == j
      {
        if j >= (n - 1) * t {
          assert rs[j] == ConstantIndex(t, n - 1, j - (n - 1) * t);
        } else {
          assert rs[j] == prev[j];
        }
      }
    }
  }
}

=== FILE: permutation.dfy ===
/**
  The Poseidon permutation as pure functions over a state of field elements.
  Each round adds round constants (ARK), applies the power map (S-box) and
  multiplies by the MDS matrix; rounds are numbered globally from 0.
 */
module Permutation {
  import opened Field
  import opened Params
  import opened DivMod

  /**
    Round `k` lies in the partial-round window, in which only slot 0 passes
    through the S-box: `fullRounds / 2 <= k < fullRounds / 2 + partialRounds`.
   */
  predicate InPartialWindow(C: Constants, k: nat)
  {
    C.fullRounds / 2 <= k < C.fullRounds / 2 + C.partialRounds
  }

  /** A state of `n` zero elements, built by appending one zero at a time. */
  function Zeros(n: nat): (r: seq<Elem>)
    ensures |r| == n
    ensures forall i :: 0 <= i < n ==> r[i] == Zero
  {
    if n == 0 then [] else Zeros(n - 1) + [Zero]
  }

  /** ARK applied to the slots `0 .. n - 1`, one slot at a time. */
  function ArkSlots(state: seq<Elem>, C: Constants, k: nat, n: nat): (r: seq<Elem>)
    requires n <= C.t <= |state| && C.t * (k + 1) <= |C.c|
    ensures |r| == |state|
    ensures forall i :: 0 <= i < n ==> r[i] == Add(state[i], C.c[ConstantIndex(C.t, k, i)])
    ensures forall i :: n <= i < |state| ==> r[i] == state[i]
  {
    if n == 0 then state
    else
      assert C.t * (k + 1) == C.t * k + C.t;
      ArkSlots(state, C, k, n - 1)[n - 1 := Add(state[n - 1], C.c[ConstantIndex(C.t, k, n - 1)])]
  }

  /**
    Add-round-key of round `k`: slot `i < t` is increased by the constant
    `c[t * k + i]`, and slots from `t` on are left alone.
   */
  function Ark(state: seq<Elem>, C: Constants, k: nat): (r: seq<Elem>)
    requires C.t <= |state| && C.t * (k + 1) <= |C.c|
    ensures |r| == |state|
    ensures forall i :: 0 <= i < C.t ==> r[i] == Add(state[i], C.c[ConstantIndex(C.t, k, i)])
    ensures forall i :: C.t <= i < |state| ==> r[i] == state[i]
  {
    ArkSlots(state, C, k, C.t)
  }

  /** The slots `0 .. n - 1` raised to the power `e`, one slot at a time. */
  function PowSlots(state: seq<Elem>, e: nat, n: nat): (r: seq<Elem>)
    requires n <= |state|
    ensures |r| == |state|
    ensures forall i :: 0 <= i < n ==> r[i] == Pow(state[i], e)
    ensures forall i :: n <= i < |state| ==> r[i] == state[i]
  {
    if n == 0 then state else PowSlots(state, e, n - 1)[n - 1 := Pow(state[n - 1], e)]
  }

  /**
    S-box of round `k`: inside the partial-round window only slot 0 is raised
    to the power `alpha`; outside it every slot is.
   */
  function Sbox(state: seq<Elem>, C: Constants, k: nat): (r: seq<Elem>)
    requires InPartialWindow(C, k) ==> |state| >= 1
    ensures |r| == |state|
    ensures InPartialWindow(C, k) ==>
              r[0] == Pow(state[0], C.alpha) && forall i :: 1 <= i < |state| ==> r[i] == state[i]
    ensures !InPartialWindow(C, k) ==> forall i :: 0 <= i < |state| ==> r[i] == Pow(state[i], C.alpha)
  {
    if InPartialWindow(C, k) then state[0 := Pow(state[0], C.alpha)]
    else PowSlots(state, C.alpha, |state|)
  }

  /** `Σ_{j < n} v[j] * row[j]`, accumulated from `j = 0` upwards. */
  function Dot(row: seq<Elem>, v: seq<Elem>, n: nat): Elem
    requires n <= |row| && n <= |v|
  {
    if n == 0 then Zero else Add(Dot(row, v, n - 1), Mul(v[n - 1], row[n - 1]))
  }

  /**
    A fresh state of `t` zeros whose slots `0 .. n - 1` have received the
    products of the matching MDS rows with `state`.
   */
  function LinearRows(state: seq<Elem>, C: Constants, n: nat): (r: seq<Elem>)
    requires n <= C.t <= |state| && CoversSquare(C.m, C.t)
    ensures |r| == C.t
    ensures forall i :: 0 <= i < n ==> r[i] == Dot(C.m[i], state, C.t)
    ensures forall i :: n <= i < C.t ==> r[i] == Zero
  {
    if n == 0 then Zeros(C.t) else LinearRows(state, C, n - 1)[n - 1 := Dot(C.m[n - 1], state, C.t)]
  }

  /**
    Linear layer: the MDS matrix times the state, so that slot `i` becomes
    `Σ_{j < t} state[j] * m[i][j]`; the result has exactly `t` slots.
   */
  function LinearLayer(state: seq<Elem>, C: Constants): (r: seq<Elem>)
    requires C.t <= |state| && CoversSquare(C.m, C.t)
    ensures |r| == C.t
    ensures forall i :: 0 <= i < C.t ==> r[i] == Dot(C.m[i], state, C.t)
  {
    LinearRows(state, C, C.t)
  }

  /**
    Round `k` of a parameter set in bounds can run on a width-`t` state:
    its constants exist, and a partial round has a slot 0 to raise.
   */
  lemma RoundFits(C: Constants, k: nat)
    requires C.InBounds() && k < C.Rounds()
    ensures C.t * (k + 1) <= |C.c|
    ensures InPartialWindow(C, k) ==> C.t >= 1
  {
    RoundConstantsAvailable(C, k);
  }

  /** One full round `k`: ARK, then S-box, then the linear layer. */
  function Round(state: seq<Elem>, C: Constants, k: nat): (r: seq<Elem>)
    requires C.InBounds() && |state| == C.t && k < C.Rounds()
    ensures |r| == C.t
  {
    RoundFits(C, k);
    LinearLayer(Sbox(Ark(state, C, k), C, k), C)
  }

  /** Rounds `0, 1, ..., n - 1` applied in that order. */
  function FirstRounds(state: seq<Elem>, C: Constants, n: nat): (r: seq<Elem>)
    requires C.InBounds() && |state| == C.t && n <= C.Rounds()
    ensures |r| == C.t
  {
    if n == 0 then state else Round(FirstRounds(state, C, n - 1), C, n - 1)
  }

  /** The Poseidon permutation: all `fullRounds + partialRounds` rounds. */
  function Permute(state: seq<Elem>, C: Constants): (r: seq<Elem>)
    requires C.InBounds() && |state| == C.t
    ensures |r| == C.t
  {
    FirstRounds(state, C, C.Rounds())
  }

  /** How many of the rounds `0 .. n - 1` use the partial S-box. */
  function PartialRoundsAmong(C: Constants, n: nat): nat
  {
    if n == 0 then 0
    else PartialRoundsAmong(C, n - 1) + (if InPartialWindow(C, n - 1) then 1 else 0)
  }

  /**
    Among the first `n` rounds, those in the window are the rounds from
    `fullRounds / 2` up to `min(n, fullRounds / 2 + partialRounds)`.
   */
  lemma {:induction false} PartialRoundsAmongCount(C: Constants, n: nat)
    ensures var lo := C.fullRounds / 2;
            var hi := lo + C.partialRounds;
            PartialRoundsAmong(C, n) == if n <= lo then 0 else if n <= hi then n - lo else C.partialRounds
  {
    if n > 0 {
      PartialRoundsAmongCount(C, n - 1);
    }
  }

  /**
    One permutation applies the partial S-box in exactly `partialRounds`
    rounds and the full S-box in exactly `fullRounds` rounds, half of the
    full rounds (rounded down) before the window.
   */
  lemma RoundKinds(C: Constants)
    ensures PartialRoundsAmong(C, C.Rounds()) == C.partialRounds
    ensures C.Rounds() - PartialRoundsAmong(C, C.Rounds()) == C.fullRounds
    ensures forall k :: 0 <= k < C.fullRounds / 2 ==> !InPartialWindow(C, k)
  {
    PartialRoundsAmongCount(C, C.Rounds());
  }

  /**
    The constants ARK reads are those of the permutation's read order: in
    round `k`, slot `i` receives entry `t * k + i` of the sequence of
    positions read by all `fullRounds + partialRounds` rounds, which is that
    very position.
   */
  lemma ArkReadsInOrder(state: seq<Elem>, C: Constants, k: nat)
    requires C.InBounds() && k < C.Rounds() && C.t <= |state|
    ensures C.t * (k + 1) <= |C.c|
    ensures var rs := ConstantReads(C.t, C.Rounds());
            forall i :: 0 <= i < C.t ==>
              && ConstantIndex(C.t, k, i) < |rs|
              && rs[ConstantIndex(C.t, k, i)] == ConstantIndex(C.t, k, i)
              && Ark(state, C, k)[i] == Add(state[i], C.c[rs[ConstantIndex(C.t, k, i)]])
  {
    RoundConstantsAvailable(C, k);
    ConstantReadsAscending(C.t, C.Rounds());
    MulMonotone(k + 1, C.Rounds(), C.t);
    assert C.t * (k + 1) == C.t * k + C.t;
  }

  /** The two-by-two identity matrix. */
  const Identity2: seq<seq<Elem>> := [[One, Zero], [Zero, One]]

  /** With the identity matrix the linear layer leaves a two-slot state alone. */
  lemma IdentityLayer(b: seq<Elem>, C: Constants)
    requires |b| == 2 && C.t == 2 && C.m == Identity2
    ensures LinearLayer(b, C) == b
  {
    Identities(b[0]);
    Identities(b[1]);
    assert Dot(C.m[0], b, 1) == b[0] && Dot(C.m[0], b, 2) == b[0];
    assert Dot(C.m[1], b, 1) == Zero && Dot(C.m[1], b, 2) == b[1];
  }

  /**
    A two-slot instance with one full round, round constants `[c0, c1]` and
    the identity matrix maps `[x0, x1]` to `[(x0 + c0)^alpha, (x1 + c1)^alpha]`:
    ARK, then the full S-box, then the linear layer.
   */
  lemma TwoSlotRound(x0: Elem, x1: Elem, C: Constants)
    requires |C.c| == 2 && C.m == Identity2 && C.t == 2
    requires C.partialRounds == 0 && C.fullRounds == 1
    ensures C.Valid()
    ensures Permute([x0, x1], C) == [Pow(Add(x0, C.c[0]), C.alpha), Pow(Add(x1, C.c[1]), C.alpha)]
  {
    var s := [x0, x1];
    assert C.Valid();
    var a := Ark(s, C, 0);
    assert a == [Add(x0, C.c[0]), Add(x1, C.c[1])];
    var b := Sbox(a, C, 0);
    assert b == [Pow(Add(x0, C.c[0]), C.alpha), Pow(Add(x1, C.c[1]), C.alpha)];
    IdentityLayer(b, C);
    assert Round(s, C, 0) == b;
    assert FirstRounds(s, C, 1) == Round(FirstRounds(s, C, 0), C, 0);
  }
}

=== FILE: poseidon.dfy ===
/**
  The crate's entry points as it computes them, loop by loop: the
  permutation over rounds, state initialisation, padding, block injection,
  absorption, squeezing and the hash. Each method is proved to compute the
  pure definition of modules `Permutation` and `Sponge`.
 */
module Poseidon {
  import opened Field
  import opened Params
  import opened Permutation
  import opened DivMod
  import Sponge

  /**
    The permutation: for every round `i` from `0` to `fullRounds +
    partialRounds - 1`, in increasing order, ARK, S-box and linear layer.
    The state keeps its width `t`.
   */
  method PoseidonPermutation(state: seq<Elem>, C: Constants) returns (s: seq<Elem>)
    requires C.InBounds() && |state| == C.t
    ensures |s| == C.t
    ensures s == Permute(state, C)
  {
    s := state;
    for i := 0 to C.fullRounds + C.partialRounds
      invariant |s| == C.t
      invariant s == FirstRounds(state, C, i)
    {
      RoundFits(C, i);
      ghost var before := s;
      s := Ark(s, C, i);
      s := Sbox(s, C, i);
      s := LinearLayer(s, C);
      assert s == Round(before, C, i);
    }
  }

  /** A state of `t` zeros, pushed one at a time. */
  method InitState(t: nat) returns (state: seq<Elem>)
    ensures |state| == t
    ensures forall i :: 0 <= i < t ==> state[i] == Zero
    ensures state == Zeros(t)
  {
    state := [];
    for i := 0 to t
      invariant state == Zeros(i)
    {
      state := state + [Zero];
    }
  }

  /**
    Pushes zeros while the length is not a multiple of `r`: the result is
    the padding of `input`, the input followed by fewer than `r` zeros.
   */
  method Pad(input: seq<Elem>, r: nat) returns (padded: seq<Elem>)
    requires r >= 1
    ensures |padded| % r == 0 && |input| <= |padded| < |input| + r
    ensures padded == Sponge.Pad(input, r)
  {
    padded := input;
    Sponge.PadLengthFacts(|input|, r);
    while |padded| % r != 0
      invariant |input| <= |padded| <= |input| + Sponge.PadLength(|input|, r)
      invariant padded == input + Zeros(|padded| - |input|)
      decreases |input| + Sponge.PadLength(|input|, r) - |padded|
    {
      padded := padded + [Zero];
    }
    if |padded| < |input| + Sponge.PadLength(|input|, r) {
      Sponge.PadLengthLeast(|input|, r, |padded|);
    }
  }

  /**
    Adds `block[i]` into `state[i]` for every `i < r`; the capacity slots
    from `r` on are left untouched.
   */
  method AddBlock(block: seq<Elem>, state: seq<Elem>, r: nat) returns (s: seq<Elem>)
    requires r <= |block| && r <= |state|
    ensures |s| == |state|
    ensures forall i :: 0 <= i < r ==> s[i] == Add(state[i], block[i])
    ensures forall i :: r <= i < |state| ==> s[i] == state[i]
    ensures s == Sponge.AddBlock(block, state, r)
  {
    s := state;
    for i := 0 to r
      invariant |s| == |state|
      invariant forall j :: 0 <= j < i ==> s[j] == Add(state[j], block[j])
      invariant forall j :: i <= j < |state| ==> s[j] == state[j]
    {
      s := s[i := Add(s[i], block[i])];
    }
  }

  /**
    One iteration of the absorption loop: add the block into the rate part,
    then permute.
   */
  method AbsorbBlock(block: seq<Elem>, state: seq<Elem>, C: Constants, r: nat, ghost perm: Sponge.Perm)
    returns (s: seq<Elem>)
    requires C.InBounds() && 1 <= r <= C.t && |state| == C.t && |block| == r
    requires Sponge.Realises(perm, C)
    ensures |s| == C.t
    ensures s == perm(Sponge.AddBlock(block, state, r))
  {
    var added := AddBlock(block, state, r);
    s := PoseidonPermutation(added, C);
  }

  /**
    Absorption: pad the input, start from `t` zeros and, for each block
    `padded[i .. i + r]` with `i = 0, r, 2r, ...`, add the block and permute.
   */
  method Absorb(input: seq<Elem>, C: Constants, r: nat, ghost perm: Sponge.Perm)
    returns (state: seq<Elem>, permutations: nat)
    requires C.InBounds() && 1 <= r <= C.t
    requires Sponge.KeepsWidth(perm, C.t) && Sponge.Realises(perm, C)
    ensures |state| == C.t
    ensures state == Sponge.Absorb(input, perm, C.t, r)
    ensures permutations == |Sponge.Pad(input, r)| / r
  {
    var padded := Pad(input, r);
    var blocks := |padded| / r;
    ExactQuotient(|padded|, r);
    state := InitState(C.t);
    var i := 0;
    permutations := 0;
    ghost var j := 0;
    while i < |padded|
      invariant 0 <= j <= blocks && i == j * r && i <= |padded|
      invariant permutations == j
      invariant state == Sponge.AbsorbBlocks(padded, perm, C.t, r, j)
      decreases blocks - j
    {
      BlockBelow(j, blocks, r);
      NextBlock(j, blocks, r);
      Sponge.AbsorbBlocksNext(padded, perm, C.t, r, j);
      assert padded[i .. i + r] == padded[j * r .. j * r + r];
      state := AbsorbBlock(padded[i .. i + r], state, C, r, perm);
      permutations := permutations + 1;
      i := i + r;
      j := j + 1;
    }
    if j < blocks {
      NextBlock(j, blocks, r);
    }
  }

  /**
    Squeezing: while fewer than `L` outputs are collected, append the first
    `r` slots and permute; then pop back to a multiple of `L` when `L > 1`,
    and to at most one element otherwise. The state the crate permutes in
    place comes back as `s`, permuted once per collected block.
   */
  method Squeeze(state: seq<Elem>, C: Constants, L: nat, r: nat, ghost perm: Sponge.Perm)
    returns (output: seq<Elem>, s: seq<Elem>, permutations: nat)
    requires C.InBounds() && 1 <= r <= C.t && |state| == C.t
    requires Sponge.KeepsWidth(perm, C.t) && Sponge.Realises(perm, C)
    ensures output == Sponge.Squeeze(state, perm, L, r)
    ensures |s| == C.t && s == Sponge.Iterate(perm, state, permutations)
    ensures permutations == Sponge.BlocksNeeded(L, r)
    ensures L == 0 ==> permutations == 0
    ensures L == 0 ==> output == []
    ensures L == 1 ==> |output| == 1
    ensures L > 1 ==> |output| % L == 0 && L <= |output| <= Sponge.BlocksNeeded(L, r) * r
    ensures 1 < L && r <= L ==> |output| == L
  {
    s := state;
    output := [];
    permutations := 0;
    while |output| < L
      invariant |s| == C.t
      invariant s == Sponge.Iterate(perm, state, permutations)
      invariant output == Sponge.SqueezeBlocks(state, perm, r, permutations)
      invariant permutations == 0 || (permutations - 1) * r < L
      decreases L - |output|
    {
      Sponge.SqueezeBlocksLast(state, perm, r, permutations);
      Sponge.IterateLast(perm, state, permutations);
      output := output + s[..r];
      s := PoseidonPermutation(s, C);
      permutations := permutations + 1;
    }
    Sponge.BlocksNeededLeast(L, r, permutations);
    if L > 1 {
      output := PopToMultiple(output, L);
    } else {
      output := PopToOne(output);
    }
    Sponge.SqueezeLength(state, perm, L, r);
  }

  /** Pops trailing elements until the length is a multiple of `L`. */
  method PopToMultiple(blocks: seq<Elem>, L: nat) returns (output: seq<Elem>)
    requires L >= 1
    ensures output == blocks[..(|blocks| / L) * L]
    ensures output == Sponge.TrimToMultiple(blocks, L)
  {
    output := blocks;
    while |output| % L != 0
      invariant Sponge.TrimToMultiple(output, L) == Sponge.TrimToMultiple(blocks, L)
      decreases |output|
    {
      output := output[..|output| - 1];
    }
    Sponge.TrimToMultipleFacts(blocks, L);
  }

  /** Pops trailing elements until at most one is left. */
  method PopToOne(blocks: seq<Elem>) returns (output: seq<Elem>)
    ensures output == blocks[..if |blocks| == 0 then 0 else 1]
    ensures output == Sponge.TrimToOne(blocks)
  {
    output := blocks;
    while |output| > 1
      invariant Sponge.TrimToOne(output) == Sponge.TrimToOne(blocks)
      decreases |output|
    {
      output := output[..|output| - 1];
    }
    Sponge.TrimToOneFacts(blocks);
  }

  /**
    The hash: `Squeeze(Absorb(input))`, a function of its arguments only,
    whose length follows the squeeze truncation rule.
   */
  method Hash(input: seq<Elem>, C: Constants, L: nat, r: nat) returns (output: seq<Elem>)
    requires C.InBounds() && 1 <= r <= C.t
    ensures output == Sponge.Hash(input, C, L, r)
    ensures var perm := Sponge.PermutationOf(C);
            output == Sponge.Squeeze(Sponge.Absorb(input, perm, C.t, r), perm, L, r)
    ensures L == 0 ==> output == []
    ensures L == 1 ==> |output| == 1
    ensures L > 1 ==> |output| % L == 0 && L <= |output|
    ensures 1 < L && r <= L ==> |output| == L
  {
    ghost var perm := Sponge.PermutationOf(C);
    var state, absorbed := Absorb(input, C, r, perm);
    var squeezedState, squeezed;
    output, squeezedState, squeezed := Squeeze(state, C, L, r, perm);
  }
}

=== FILE: sponge.dfy ===
/**
  The sponge built on a width-preserving permutation, as pure functions:
  zero padding, absorption of rate-sized blocks into the first `r` slots,
  and squeezing of `r` slots per permutation followed by the truncation
  rule of the crate. The sponge is stated for any permutation of the
  state; `Hash` instantiates it with the Poseidon permutation.
 */
module Sponge {
  import opened Field
  import opened Params
  import opened Permutation
  import opened DivMod

  /** A permutation of the state, as a function value. */
  type Perm = seq<Elem> -> seq<Elem>

  /** `perm` maps states of width `t` to states of width `t`. */
  ghost predicate KeepsWidth(perm: Perm, t: nat)
  {
    forall s: seq<Elem> :: |s| == t ==> |perm(s)| == t
  }

  /** The state after `n` successive applications of `perm`. */
  function Iterate(perm: Perm, state: seq<Elem>, n: nat): seq<Elem>
    decreases n
  {
    if n == 0 then state else Iterate(perm, perm(state), n - 1)
  }

  /** One application more is one more application at the end. */
  lemma {:induction false} IterateLast(perm: Perm, state: seq<Elem>, n: nat)
    ensures Iterate(perm, state, n + 1) == perm(Iterate(perm, state, n))
    decreases n
  {
    if n > 0 {
      IterateLast(perm, perm(state), n - 1);
    }
  }

  lemma {:induction false} IterateKeepsWidth(perm: Perm, state: seq<Elem>, n: nat)
    requires KeepsWidth(perm, |state|)
    ensures |Iterate(perm, state, n)| == |state|
    decreases n
  {
    if n > 0 {
      IterateKeepsWidth(perm, perm(state), n - 1);
    }
  }

  /** Number of zeros that bring a length `n` up to a multiple of `r`. */
  function PadLength(n: nat, r: nat): nat
    requires r >= 1
  {
    (r - n % r) % r
  }

  lemma PadLengthFacts(n: nat, r: nat)
    requires r >= 1
    ensures PadLength(n, r) < r
    ensures (n + PadLength(n, r)) % r == 0
    ensures n % r == 0 ==> PadLength(n, r) == 0
    ensures n % r != 0 ==> PadLength(n, r) == r - n % r
  {
    var q, m := n / r, n % r;
    if m == 0 {
      DivModUnique(r, r, 1, 0);
    } else {
      DivModUnique(r - m, r, 0, r - m);
      DivModUnique(n + (r - m), r, q + 1, 0);
    }
  }

  /** No length strictly between `n` and `n + PadLength(n, r)` is a multiple of `r`. */
  lemma PadLengthLeast(n: nat, r: nat, x: nat)
    requires r >= 1 && n <= x < n + PadLength(n, r)
    ensures x % r != 0
  {
    PadLengthFacts(n, r);
    var q, m := n / r, n % r;
    DivModUnique(x, r, q, x - q * r);
  }

  /**
    Zero padding: the input followed by the fewest zeros that make its
    length a multiple of `r`; an input whose length already is a multiple
    of `r` is left as it is.
   */
  function Pad(input: seq<Elem>, r: nat): (p: seq<Elem>)
    requires r >= 1
    ensures |p| % r == 0
    ensures |input| <= |p| < |input| + r
    ensures p[..|input|] == input
    ensures forall i :: |input| <= i < |p| ==> p[i] == Zero
    ensures |input| % r == 0 ==> p == input
    ensures |input| % r != 0 ==> |p| == |input| + (r - |input| % r)
  {
    PadLengthFacts(|input|, r);
    input + Zeros(PadLength(|input|, r))
  }

  /**
    Padding forgets trailing zeros below a block boundary: appending one
    zero to an input whose length is not a multiple of `r` does not change
    its padded form.
   */
  lemma PadTrailingZero(input: seq<Elem>, r: nat)
    requires r >= 1 && |input| % r != 0
    ensures Pad(input + [Zero], r) == Pad(input, r)
  {
    var n := |input|;
    var q, m := n / r, n % r;
    if m + 1 < r {
      DivModUnique(n + 1, r, q, m + 1);
    } else {
      DivModUnique(n + 1, r, q + 1, 0);
    }
    var a, b := Pad(input + [Zero], r), Pad(input, r);
    assert |a| == |b|;
    forall i | 0 <= i < |a|
      ensures a[i] == b[i]
    {
      if i < n {
        assert a[..n + 1][i] == (input + [Zero])[i];
        assert b[..n][i] == input[i];
      } else if i == n {
        assert a[..n + 1][i] == (input + [Zero])[i];
      }
    }
  }

  /** Adds the first `r` elements of `block` into the first `r` slots. */
  function AddBlock(block: seq<Elem>, state: seq<Elem>, r: nat): (s: seq<Elem>)
    requires r <= |block| && r <= |state|
    ensures |s| == |state|
    ensures forall i :: 0 <= i < r ==> s[i] == Add(state[i], block[i])
    ensures s[r..] == state[r..]
  {
    seq(|state|, i requires 0 <= i < |state| => if i < r then Add(state[i], block[i]) else state[i])
  }

  /**
    The state after absorbing the first `j` blocks of `padded`: start from
    `t` zeros, then for each block `padded[(b - 1) * r .. b * r]` add it into
    the rate part and apply the permutation once.
   */
  function AbsorbBlocks(padded: seq<Elem>, perm: Perm, t: nat, r: nat, j: nat): (s: seq<Elem>)
    requires KeepsWidth(perm, t) && 1 <= r <= t && j * r <= |padded|
    ensures |s| == t
  {
    if j == 0 then Zeros(t)
    else
      assert (j - 1) * r + r == j * r;
      var before := AbsorbBlocks(padded, perm, t, r, j - 1);
      perm(AddBlock(padded[(j - 1) * r .. j * r], before, r))
  }

  /** Absorbing block `j` (the elements `j * r .. j * r + r`) is one addition and one permutation. */
  lemma AbsorbBlocksNext(padded: seq<Elem>, perm: Perm, t: nat, r: nat, j: nat)
    requires KeepsWidth(perm, t) && 1 <= r <= t && j * r + r <= |padded|
    ensures (j + 1) * r <= |padded|
    ensures AbsorbBlocks(padded, perm, t, r, j + 1)
         == perm(AddBlock(padded[j * r .. j * r + r], AbsorbBlocks(padded, perm, t, r, j), r))
  {
    assert (j + 1) * r == j * r + r;
  }

  /** Absorption: pad, then absorb every block, one permutation per block. */
  function Absorb(input: seq<Elem>, perm: Perm, t: nat, r: nat): (s: seq<Elem>)
    requires KeepsWidth(perm, t) && 1 <= r <= t
    ensures |s| == t
  {
    var padded := Pad(input, r);
    AbsorbBlocks(padded, perm, t, r, |padded| / r)
  }

  /** Absorbing the first `j` blocks only looks at those blocks. */
  lemma {:induction false} AbsorbBlocksPrefix(p: seq<Elem>, q: seq<Elem>, perm: Perm, t: nat, r: nat, j: nat)
    requires KeepsWidth(perm, t) && 1 <= r <= t && j * r <= |p| <= |q| && p == q[..|p|]
    ensures AbsorbBlocks(p, perm, t, r, j) == AbsorbBlocks(q, perm, t, r, j)
  {
    if j > 0 {
      assert (j - 1) * r + r == j * r;
      AbsorbBlocksPrefix(p, q, perm, t, r, j - 1);
      assert p[(j - 1) * r .. j * r] == q[(j - 1) * r .. j * r];
    }
  }

  /**
    Absorption proceeds one block and one permutation at a time: the empty
    input leaves the `t` zeros untouched, and appending one full block to a
    block-aligned input adds it into the rate part of the previous state and
    permutes once more.
   */
  lemma AbsorbOneBlockAtATime(input: seq<Elem>, block: seq<Elem>, perm: Perm, t: nat, r: nat)
    requires KeepsWidth(perm, t) && 1 <= r <= t
    requires |input| % r == 0 && |block| == r
    ensures Absorb([], perm, t, r) == Zeros(t)
    ensures Absorb(input + block, perm, t, r) == perm(AddBlock(block, Absorb(input, perm, t, r), r))
  {
    var n := |input|;
    var j := n / r;
    assert n == j * r;
    DivModUnique(n + r, r, j + 1, 0);
    var whole := input + block;
    assert Pad(whole, r) == whole;
    assert Pad(input, r) == input;
    assert (j + 1) * r == n + r;
    AbsorbBlocksPrefix(input, whole, perm, t, r, j);
    assert whole[j * r .. (j + 1) * r] == block;
    DivModUnique(r - 1, r, 0, r - 1);
    assert Pad([], r) == [];
  }

  /**
    Two inputs that differ only by a trailing zero below a block boundary
    absorb to the same state (padding is length-driven, with no terminator).
   */
  lemma AbsorbTrailingZero(input: seq<Elem>, perm: Perm, t: nat, r: nat)
    requires KeepsWidth(perm, t) && 1 <= r <= t && |input| % r != 0
    ensures Absorb(input + [Zero], perm, t, r) == Absorb(input, perm, t, r)
  {
    PadTrailingZero(input, r);
  }

  /** The number of `r`-slot blocks squeezed to reach `L` outputs: `ceil(L / r)`. */
  function BlocksNeeded(L: nat, r: nat): nat
    requires r >= 1
  {
    (L + r - 1) / r
  }

  /**
    `BlocksNeeded(L, r)` is exactly the number of iterations of the squeeze
    loop: the least `j` whose `j * r` output elements reach `L`.
   */
  lemma BlocksNeededLeast(L: nat, r: nat, j: nat)
    requires r >= 1
    ensures j == BlocksNeeded(L, r) <==> j * r >= L && (j == 0 || (j - 1) * r < L)
  {
    var k := BlocksNeeded(L, r);
    assert L + r - 1 == k * r + (L + r - 1) % r;
    assert k * r >= L && (k == 0 || (k - 1) * r < L);
    if j * r >= L && (j == 0 || (j - 1) * r < L) {
      DivModUnique(L + r - 1, r, j, L + r - 1 - j * r);
    }
  }

  /**
    The concatenation of the first `r` slots of `k` successive states, each
    taken before the permutation that produces the next.
   */
  function SqueezeBlocks(state: seq<Elem>, perm: Perm, r: nat, k: nat): (out: seq<Elem>)
    requires KeepsWidth(perm, |state|) && r <= |state|
    ensures |out| == k * r
    decreases k
  {
    if k == 0 then []
    else state[..r] + SqueezeBlocks(perm(state), perm, r, k - 1)
  }

  /** Squeezing one block more appends the rate part of the `k`-th permuted state. */
  lemma {:induction false} SqueezeBlocksLast(state: seq<Elem>, perm: Perm, r: nat, k: nat)
    requires KeepsWidth(perm, |state|) && r <= |state|
    ensures |Iterate(perm, state, k)| == |state|
    ensures SqueezeBlocks(state, perm, r, k + 1)
         == SqueezeBlocks(state, perm, r, k) + Iterate(perm, state, k)[..r]
    decreases k
  {
    IterateKeepsWidth(perm, state, k);
    if k > 0 {
      SqueezeBlocksLast(perm(state), perm, r, k - 1);
    }
  }

  /**
    Offset `o` of block `b` of the squeezed blocks is slot `o` of the state
    after `b` permutations.
   */
  lemma {:induction false} SqueezeBlocksAt(state: seq<Elem>, perm: Perm, r: nat, k: nat, b: nat, o: nat)
    requires KeepsWidth(perm, |state|) && r <= |state| && b < k && o < r
    ensures b * r + o < k * r && |Iterate(perm, state, b)| == |state|
    ensures SqueezeBlocks(state, perm, r, k)[b * r + o] == Iterate(perm, state, b)[o]
    decreases k
  {
    BlockOffset(b, o, r, k);
    IterateKeepsWidth(perm, state, b);
    if b > 0 {
      SqueezeBlocksAt(perm(state), perm, r, k - 1, b - 1, o);
    }
  }

  /** Pops trailing elements until the length is a multiple of `L`. */
  function TrimToMultiple(s: seq<Elem>, L: nat): (out: seq<Elem>)
    requires L >= 1
    decreases |s|
  {
    if |s| % L == 0 then s else TrimToMultiple(s[..|s| - 1], L)
  }

  /** The pop loop stops at the largest multiple of `L` not above `|s|`. */
  lemma {:induction false} TrimToMultipleFacts(s: seq<Elem>, L: nat)
    requires L >= 1
    ensures TrimToMultiple(s, L) == s[..(|s| / L) * L]
    decreases |s|
  {
    var q, m := |s| / L, |s| % L;
    assert |s| == q * L + m;
    if m != 0 {
      var s' := s[..|s| - 1];
      DivModUnique(|s'|, L, q, m - 1);
      TrimToMultipleFacts(s', L);
      assert TrimToMultiple(s', L) == s'[..q * L];
      assert s'[..q * L] == s[..q * L];
    }
  }

  /** Pops trailing elements until at most one remains. */
  function TrimToOne(s: seq<Elem>): (out: seq<Elem>)
    decreases |s|
  {
    if |s| <= 1 then s else TrimToOne(s[..|s| - 1])
  }

  lemma {:induction false} TrimToOneFacts(s: seq<Elem>)
    ensures TrimToOne(s) == s[..if |s| == 0 then 0 else 1]
    decreases |s|
  {
    if |s| > 1 {
      TrimToOneFacts(s[..|s| - 1]);
    }
  }

  /**
    Squeezing `L` outputs: collect the rate part of `ceil(L / r)` successive
    states, then for `L > 1` pop back to a multiple of `L`, and otherwise pop
    back to at most one element.
   */
  function Squeeze(state: seq<Elem>, perm: Perm, L: nat, r: nat): (out: seq<Elem>)
    requires KeepsWidth(perm, |state|) && 1 <= r <= |state|
  {
    var blocks := SqueezeBlocks(state, perm, r, BlocksNeeded(L, r));
    if L > 1 then TrimToMultiple(blocks, L) else TrimToOne(blocks)
  }

  /**
    The length of a squeeze of `L` outputs with `k = ceil(L / r)` blocks:
    none for `L == 0`, one for `L == 1`; for `L > 1` the largest multiple of
    `L` not above `k * r`, which is `L` itself when `r <= L` but is
    `(r / L) * L` when `r > L`.
   */
  lemma SqueezeLength(state: seq<Elem>, perm: Perm, L: nat, r: nat)
    requires KeepsWidth(perm, |state|) && 1 <= r <= |state|
    ensures var out, k := Squeeze(state, perm, L, r), BlocksNeeded(L, r);
            && (L == 0 ==> out == [])
            && (L == 1 ==> |out| == 1)
            && (L > 1 ==> |out| % L == 0 && L <= |out| <= k * r && |out| == (k * r / L) * L)
            && (1 < L && r <= L ==> |out| == L)
            && (1 < L < r ==> |out| == (r / L) * L)
  {
    var k := BlocksNeeded(L, r);
    var blocks := SqueezeBlocks(state, perm, r, k);
    BlocksNeededLeast(L, r, k);
    if L <= 1 {
      BlocksNeededLeast(L, r, L);
      TrimToOneFacts(blocks);
    } else {
      var x := k * r;
      TrimToMultipleFacts(blocks, L);
      FloorMultiple(x, L);
      if r <= L {
        assert (k - 1) * r == x - r;
        DivModUnique(x, L, 1, x - L);
      } else {
        BlocksNeededLeast(L, r, 1);
      }
    }
  }

  /**
    Every squeezed element is a slot of the rate part of some permuted state:
    the output is a prefix of the snapshots `Iterate(perm, state, j)[..r]`
    for `j = 0, 1, ...`, element `i` being slot `i % r` after `i / r`
    permutations.
   */
  lemma SqueezeFromSnapshots(state: seq<Elem>, perm: Perm, L: nat, r: nat)
    requires KeepsWidth(perm, |state|) && 1 <= r <= |state|
    ensures var out, blocks := Squeeze(state, perm, L, r), SqueezeBlocks(state, perm, r, BlocksNeeded(L, r));
            && |out| <= |blocks|
            && out == blocks[..|out|]
            && forall i :: 0 <= i < |out| ==>
                 |Iterate(perm, state, i / r)| == |state| && out[i] == Iterate(perm, state, i / r)[i % r]
  {
    var k := BlocksNeeded(L, r);
    var blocks := SqueezeBlocks(state, perm, r, k);
    forall i | 0 <= i < |blocks|
      ensures |Iterate(perm, state, i / r)| == |state|
      ensures blocks[i] == Iterate(perm, state, i / r)[i % r]
    {
      BlockOf(i, r, k);
      SqueezeBlocksAt(state, perm, r, k, i / r, i % r);
    }
    if L > 1 {
      TrimToMultipleFacts(blocks, L);
      FloorMultiple(|blocks|, L);
    } else {
      TrimToOneFacts(blocks);
    }
  }

  /** `perm` agrees with the Poseidon permutation on states of width `t`. */
  ghost predicate Realises(perm: Perm, C: Constants)
    requires C.InBounds()
  {
    forall s: seq<Elem> {:trigger Permute(s, C)} :: |s| == C.t ==> perm(s) == Permute(s, C)
  }

  /**
    The Poseidon permutation of a parameter set as a function value on
    states; states of another width are returned unchanged and never occur.
   */
  function PermutationOf(C: Constants): (perm: Perm)
    requires C.InBounds()
    ensures KeepsWidth(perm, C.t)
    ensures Realises(perm, C)
  {
    (s: seq<Elem>) => if |s| == C.t then Permute(s, C) else s
  }

  /**
    The hash: absorb the input, then squeeze `L` outputs from the result.
    Its length is that of every squeeze of `L` outputs.
   */
  function Hash(input: seq<Elem>, C: Constants, L: nat, r: nat): (out: seq<Elem>)
    requires C.InBounds() && 1 <= r <= C.t
    ensures L == 0 ==> out == []
    ensures L == 1 ==> |out| == 1
    ensures L > 1 ==> |out| % L == 0 && L <= |out| <= BlocksNeeded(L, r) * r
    ensures 1 < L && r <= L ==> |out| == L
  {
    var perm := PermutationOf(C);
    var absorbed := Absorb(input, perm, C.t, r);
    SqueezeLength(absorbed, perm, L, r);
    Squeeze(absorbed, perm, L, r)
  }

  /**
    Zero padding on the crate's own example: eight elements with rate 3
    pad to nine, the last one zero.
   */
  lemma PadEightByThree(input: seq<Elem>)
    requires |input| == 8
    ensures |Pad(input, 3)| == 9 && Pad(input, 3)[8] == Zero && Pad(input, 3)[..8] == input
  {
    PadLengthFacts(8, 3);
  }

  /** At rate 1, the input `[Zero]` absorbs to one permutation of the zero state. */
  lemma AbsorbOneZero(perm: Perm, t: nat)
    requires KeepsWidth(perm, t) && t >= 1
    ensures Absorb([Zero], perm, t, 1) == perm(Zeros(t))
  {
    AbsorbOneBlockAtATime([], [Zero], perm, t, 1);
    assert [] + [Zero] == [Zero];
    Identities(Zero);
    assert AddBlock([Zero], Zeros(t), 1) == Zeros(t);
  }

  /**
    Absorbing the one-element zero input at rate 1 into a two-slot instance
    with one full round, round constants `[c0, c1]` and the identity matrix
    gives `[c0^alpha, c1^alpha]`.
   */
  lemma ZeroInputScenario(C: Constants)
    requires |C.c| == 2 && C.m == Identity2 && C.t == 2
    requires C.partialRounds == 0 && C.fullRounds == 1
    ensures C.Valid()
    ensures Absorb([Zero], PermutationOf(C), C.t, 1) == [Pow(C.c[0], C.alpha), Pow(C.c[1], C.alpha)]
  {
    TwoSlotRound(Zero, Zero, C);
    var perm := PermutationOf(C);
    AbsorbOneZero(perm, 2);
    ZerosPermuted(C, perm);
  }

  /** The permutation of that instance maps the zero state to `[c0^alpha, c1^alpha]`. */
  lemma ZerosPermuted(C: Constants, perm: Perm)
    requires |C.c| == 2 && C.m == Identity2 && C.t == 2
    requires C.partialRounds == 0 && C.fullRounds == 1
    requires C.InBounds() && Realises(perm, C)
    ensures perm(Zeros(2)) == [Pow(C.c[0], C.alpha), Pow(C.c[1], C.alpha)]
  {
    assert Zeros(2) == [Zero, Zero];
    TwoSlotRound(Zero, Zero, C);
    Identities(C.c[0]);
    Identities(C.c[1]);
  }
}
